=== FILE: README.md ===
# Image App: pixel-grid engine, in Dafny

This project models the image-processing core of the Image App: the
in-memory transforms that `ImageApp` applies to a two-dimensional array of
pixels. It also models the two `int[][]` utilities next to them and the small
`Vector1by2` / `Matrix2by2` arithmetic classes. The model proves properties of
these transforms.

- `colors.dfy` (module `Colors`) is a pixel's colour, with three channels
  limited to 0..255 as `java.awt.Color` demands. It also holds the three
  per-pixel colour maps (BRG reordering, negative, grayscale) and the
  near-white test used when compositing.
- `grids.dfy` (module `Grids`) holds row-major arrays with a generic element
  type. It defines the three index remappings (the half turn, the `rotate90`
  mapping and the `rotateNeg90` mapping) and proves how they compose.
- `image_app.dfy` (module `ImageApp`) holds the transforms themselves:
  - `changeColor`, `negativeColor` and `grayscale` on whole images;
  - `rotate180`, `rotate90` and `rotateNeg90`;
  - the white-keyed composite `insertImage`;
  - `copy2DArray` and `rotate2DArray`.

  The methods replay the Java loops write by write. A freshly allocated Java
  array starts with null slots (`Slot.Empty`); the model fills those slots and
  then applies the black backfill. Each method is proved to produce exactly
  the result of a reference function.
- `vectors.dfy` (module `Vectors`) and `matrices.dfy` (module `Matrices`) model
  the 2-vector and the 2x2 matrix over `real`.

Each Java class is a value here: an operation returns a new value, and its
operands stay as they were. A getter is a datatype field, and the component
constructors are the datatype constructors. An operation that changes an
array in place returns the new contents.

Where a doc comment in ImageApp.java and the code beside it disagree, the
model follows the code:

- **Direction labels.** Read with rows growing downwards, the index formulas
  turn the picture as follows (`ImageApp.RotationExamples` fixes both on the
  array 1 2 3 / 4 5 6):
  - `rotate90` gives 4 1 / 5 2 / 6 3, a clockwise turn, although its doc
    comment (ImageApp.java:197) says "counterclockwise".
  - `rotateNeg90` gives 3 6 / 2 5 / 1 4, a counterclockwise turn, although
    its doc comment (ImageApp.java:259) says "90 clockwise".
  - `rotate2DArray` uses the same mapping as `rotateNeg90`, so its
    "counterclockwise" label (ImageApp.java:427) is correct. Both are defined
    through the single function `Grids.RotatedNeg90`.
- **Rotation-matrix path.** The doc comments of `rotate90` and `rotateNeg90`
  (ImageApp.java:197, 259) say they rotate "using matrix multiplication". In
  the code, the matrix and centre computation (ImageApp.java:210-226 and
  272-288) produces `newRow`/`newCol`, which are never used; the direct index
  formula decides every target. The model proves two things about this:
  - Every slot is written exactly once.
  - The backfill writes no black pixel.

  Had the matrix path been used, it would have placed pixels outside the
  result (`ImageApp.UnusedMatrixPathLeavesGrid`).
- **Negative offsets in `insertImage`.** The code only clips at the bottom and
  right edges. With a negative offset, Java throws only when a target with a
  negative index passes the bounds test and either the small pixel there is
  not near white or the small row has no such cell. The model takes offsets
  as `nat`.

## Model

| member | source | states |
|---|---|---|
| Colors.Brg | ImageApp.java:127-129 | the new red is the old blue, the new green the old red and the new blue the old green |
| Colors.BrgPeriod3 | ImageApp.java:128-129 | reordering (R,G,B) to (B,R,G) three times gives the colour back; twice gives (G,B,R) |
| Colors.BrgFixedIff | ImageApp.java:128-129 | the reordering leaves a colour unchanged exactly when all three channels are equal |
| Colors.Negative | ImageApp.java:144-147 | each channel of the negative adds up to 255 with the old channel, so the new colour is a valid 0..255 colour |
| Colors.NegativeInvolution | ImageApp.java:144-147 | the negative of the negative is the original colour |
| Colors.NegativeMovesEveryColor | ImageApp.java:144-147 | no colour is its own negative (255 is odd) |
| Colors.Gray | ImageApp.java:162-164 | the result is a gray whose level v satisfies 3v <= R+G+B < 3v+3, i.e. the truncated average |
| Colors.GrayIdempotent | ImageApp.java:162-164 | graying a gray changes nothing |
| Colors.GrayFixedIff | ImageApp.java:162-164 | graying leaves a colour unchanged exactly when it is already a gray |
| Colors.NearWhite | ImageApp.java:345-349 | a small pixel counts as background exactly when none of its three channels is below 250, so `insertImage` skips it |
| ImageApp.ChangeColor | ImageApp.java:122-132 | every row keeps its length and every pixel's channels move from (R,G,B) to (B,R,G) |
| ImageApp.ChangeColorPeriod3 | ImageApp.java:122-132 | applying `changeColor` three times restores every pixel of every row |
| ImageApp.NegativeColor | ImageApp.java:138-150 | every row keeps its length and each channel of each pixel adds up to 255 with the old one |
| ImageApp.NegativeColorInvolution | ImageApp.java:138-150 | applying `negativeColor` twice restores the image |
| ImageApp.Grayscale | ImageApp.java:156-167 | every row keeps its length and every pixel becomes the gray of its truncated channel average |
| ImageApp.GrayscaleIdempotent | ImageApp.java:156-167 | applying `grayscale` twice equals applying it once |
| ImageApp.GrayscaleFixedIff | ImageApp.java:156-167 | `grayscale` leaves an image unchanged exactly when every pixel is already gray |
| Grids.Rotated180 | ImageApp.java:175-179 | the result has the same h by w shape as the source |
| Grids.Rotated180Lands | ImageApp.java:182-186 | source cell (i,j) lands at (h-1-i, w-1-j) of the half turn |
| ImageApp.Rotate180 | ImageApp.java:173-194 | the scratch array is fully written before the copy-back (no null slot is read), and the array ends up as the half turn |
| Grids.Rotated180Involution | ImageApp.java:173-194 | rotating by 180 degrees twice restores the array |
| Grids.Rotated90 | ImageApp.java:203-207 | the result is w by h: height and width swap |
| Grids.Rotated90Lands | ImageApp.java:229-237 | source cell (r,c) lands at (c, h-1-r) |
| ImageApp.Rotate90 | ImageApp.java:201-256 | with full rows allocated, every target passes the bounds check and is written once, the black backfill writes nothing, and the result is `Rotated90` |
| ImageApp.Backfill | ImageApp.java:243-253 | every null slot becomes black and every written slot keeps its pixel; the count of black writes is zero exactly when no slot was null |
| Grids.RotatedNeg90 | ImageApp.java:265-269 | the result is w by h: height and width swap |
| Grids.RotatedNeg90Lands | ImageApp.java:291-299 | source cell (r,c) lands at (w-1-c, r) |
| ImageApp.RotateNeg90 | ImageApp.java:263-318 | every target is written once, the black backfill writes nothing, and the result is `RotatedNeg90` |
| Grids.RotatedNeg90Undoes90 | ImageApp.java:291-292 | `rotateNeg90` after `rotate90` restores the dimensions and every cell |
| Grids.Rotated90UndoesNeg90 | ImageApp.java:229-230 | `rotate90` after `rotateNeg90` restores the dimensions and every cell |
| Grids.Rotated90Twice | ImageApp.java:229-230 | two `rotate90` turns equal the 180-degree rotation |
| Grids.RotatedNeg90Twice | ImageApp.java:291-292 | two `rotateNeg90` turns equal the 180-degree rotation |
| Grids.HalfTurnAfterQuarterTurn | ImageApp.java:184 | the 180-degree rotation after `rotate90` equals `rotateNeg90` |
| Grids.FourQuarterTurns | ImageApp.java:229-230 | four quarter turns in either direction restore the array |
| Grids.ThreeQuarterTurns | ImageApp.java:229-230 | three `rotate90` turns equal one `rotateNeg90` turn |
| ImageApp.Rotate2DArray | ImageApp.java:431-443 | the m by n result, filled from a zeroed array by `rotated[m-1-j][i] = array[i][j]`, is exactly the `rotateNeg90` mapping |
| ImageApp.RotationExamples | ImageApp.java:436-440 | on 1 2 3 / 4 5 6 the `rotate2DArray`/`rotateNeg90` mapping gives 3 6 / 2 5 / 1 4 and the `rotate90` mapping gives 4 1 / 5 2 / 6 3 |
| ImageApp.UnusedMatrixPathLeavesGrid | ImageApp.java:210-226 | with exact trigonometry, the unused rotation-matrix coordinates send pixel (0,0) of a 2x2 image to column 2, outside the result |
| ImageApp.Inserted | ImageApp.java:327-353 | the large image keeps its shape; a target inside it takes the small pixel unless that pixel is near white; every cell outside the footprint is unchanged |
| ImageApp.InsertImage | ImageApp.java:335-352 | the clipped, white-skipping loop leaves the large image exactly as `Inserted` describes |
| ImageApp.InsertWhiteChangesNothing | ImageApp.java:345-349 | inserting an image that is near white everywhere changes nothing |
| ImageApp.InsertOutsideChangesNothing | ImageApp.java:340-341 | a placement at or beyond the last row or column is clipped away entirely |
| ImageApp.InsertIdempotent | ImageApp.java:327-353 | inserting the same image at the same place twice equals inserting it once |
| ImageApp.InsertExample | ImageApp.java:327-353 | white/white/white/red inserted at (1,1) into 4x4 black changes only (2,2), to red |
| ImageApp.Copied | ImageApp.java:418-424 | every row keeps its length; cells under the source hold the source value, every other cell is unchanged |
| ImageApp.Copy2DArray | ImageApp.java:418-424 | the row-by-row copy loop leaves the destination exactly as `Copied` describes |
| ImageApp.CopiedOntoSameShape | ImageApp.java:418-424 | copying onto an array of the same shape yields the source |
| ImageApp.CopiedIdempotent | ImageApp.java:418-424 | copying twice equals copying once |
| Vectors.CopyOf | Vector1by2.java:30-32 | the copy constructor yields an equal vector |
| Vectors.WithRow | Vector1by2.java:39 | `setRow` changes the row and keeps the column |
| Vectors.WithCol | Vector1by2.java:40 | `setCol` changes the column and keeps the row |
| Vectors.Zero | Vector1by2.java:22-24 | the default constructor gives the vector (0,0) |
| Vectors.Add | Vector1by2.java:47-49 | `add` gives a new vector whose components are the componentwise sums |
| Vectors.Subtract | Vector1by2.java:56-58 | `subtract` gives a new vector whose components are the componentwise differences |
| Vectors.Scale | Vector1by2.java:65-67 | `multiply(double)` gives a new vector with both components times the scalar |
| Vectors.Dot | Vector1by2.java:74-76 | `dot` is row times row plus column times column |
| Vectors.Equals | Vector1by2.java:102-108 | two vectors are equal when both components differ by less than 0.0001 |
| Vectors.AddSubtractRoundTrip | Vector1by2.java:47-58 | `v.add(w).subtract(w)` and `v.subtract(w).add(w)` give v back |
| Vectors.AddLaws | Vector1by2.java:47-49 | the default-constructed zero vector is neutral for `add`, `add` is commutative, and v minus v is zero |
| Vectors.ScaleLaws | Vector1by2.java:65-67 | scaling distributes over `add`, scaling by 1 changes nothing, and scaling by 0 gives zero |
| Vectors.DotLaws | Vector1by2.java:74-76 | `dot` is symmetric and linear in its first argument, and zero against the zero vector |
| Vectors.DotOf | Vector1by2.java:84-86 | the static `dot` equals the instance `dot` |
| Vectors.VectorExamples | VectorMatrixTest.java:37-57 | (3,4)+(1,2)=(4,6), (3,4)-(1,2)=(2,2), (3,4)*2=(6,8), and the setters give (5,6) |
| Vectors.DotExamples | VectorMatrixTest.java:120-136 | (3,4).(1,2)=11 in both the instance and the static dot form, and (1,0).(0,1)=0 |
| Vectors.EqualsReflexiveSymmetric | Vector1by2.java:103-108 | tolerance equality is reflexive and symmetric |
| Vectors.EqualsNotTransitive | Vector1by2.java:103-108 | tolerance equality is not transitive: 0 ~ 0.00006 ~ 0.00012 but not 0 ~ 0.00012 |
| Matrices.CopyOf | Matrix2by2.java:34-37 | the copy constructor yields an entrywise equal matrix |
| Matrices.WithA00 | Matrix2by2.java:46 | `setA00` changes that entry only |
| Matrices.WithA01 | Matrix2by2.java:47 | `setA01` changes that entry only |
| Matrices.WithA10 | Matrix2by2.java:48 | `setA10` changes that entry only |
| Matrices.WithA11 | Matrix2by2.java:49 | `setA11` changes that entry only |
| Matrices.Identity | Matrix2by2.java:26-28 | the default constructor gives the identity matrix [[1,0],[0,1]] |
| Matrices.Scale | Matrix2by2.java:85-90 | `multiply(double)` gives a new matrix with every entry times the scalar |
| Matrices.Multiply | Matrix2by2.java:97-104 | `multiply(Matrix2by2)` gives the row-by-column product with the receiver on the left |
| Matrices.Apply | Matrix2by2.java:111-116 | `multiply(Vector1by2)` applies the matrix to the vector taken as a column |
| Matrices.Equals | Matrix2by2.java:143-152 | two matrices are equal when all four entries differ by less than 0.0001 |
| Matrices.SetMatrix | Matrix2by2.java:58-63 | all four entries take the given values, whatever the matrix held before |
| Matrices.SetRotationMatrix | Matrix2by2.java:69-78 | whatever the angle, a00 == a11 and a01 == -a10, with a00 the cosine and a10 the sine |
| Matrices.IdentityLaws | Matrix2by2.java:26-28 | the default-constructed identity leaves every vector unchanged and is neutral on both sides of the matrix product |
| Matrices.MultiplyComposes | Matrix2by2.java:97-116 | applying a product of matrices to a vector equals applying the right factor and then the left one |
| Matrices.ScaleApply | Matrix2by2.java:85-90 | a scaled matrix applied to a vector gives the scaled image of that vector |
| Matrices.ApplyStatic | Matrix2by2.java:124-126 | the static `multiply(vector, matrix)` equals `matrix.multiply(vector)` |
| Matrices.RotationsCompose | Matrix2by2.java:69-78 | the product of two rotation matrices is the rotation matrix of the angle-addition cosine and sine |
| Matrices.RotationPreservesDot | Matrix2by2.java:69-78 | when cos^2 + sin^2 = 1 the rotation matrix preserves dot products |
| Matrices.QuarterTurnValues | VectorMatrixTest.java:91-97 | with the exact cosine and sine of 90 degrees, (1,0) goes to (0,1) and (0,1) to (-1,0); with those of -90 degrees, (1,0) goes to (0,-1) |
| Matrices.MatrixExamples | VectorMatrixTest.java:100-112 | [[1,2],[3,4]]*[[2,0],[1,2]] = [[4,4],[10,8]] and [[1,2],[3,4]]*2 = [[2,4],[6,8]] |
| Matrices.SetterExamples | VectorMatrixTest.java:80-88 | setting the four entries of [[1,2],[3,4]] to 5, 6, 7, 8 gives [[5,6],[7,8]], and `setMatrix(1,2,3,4)` restores [[1,2],[3,4]] |
| Matrices.IdentityExample | VectorMatrixTest.java:168-171 | the default-constructed identity sends (1,0) to (1,0) |
| Matrices.EqualsReflexiveSymmetric | Matrix2by2.java:144-152 | tolerance equality of matrices is reflexive and symmetric |

## Left out

- `main`, `testVectorMatrixOperations`, `print2DArray`, and the console
  message at the top of each transform are left out: they are file loading,
  display and printing.
- `pixelsToPicture` and the `Picture(1, 1)` used to make the black backfill
  pixel are left out. They rely on `Picture` and `Pixel`, which are not part of
  this model. A pixel is modelled by its colour, and the backfill value is a
  parameter.
- `rotate180` moves `Pixel` references, and `insertImage` calls `setColor` on
  the large image's `Pixel` objects. The model moves colour values instead, so
  the model does not cover aliasing between `Pixel` objects or a backing
  `Picture`.
- A Java 2-D array is an array of row references, and two rows may be the
  same array. A `seq<seq<T>>` cannot share rows, so the model does not cover
  a `copy2DArray` destination row that is also a source row
  (ImageApp.java:421), or a `Pixel[][]` whose rows alias before the
  copy-back of `rotate180` (ImageApp.java:191).
- The null-row branch of `rotate90`/`rotateNeg90` (ImageApp.java:234-236,
  296-298) is not modelled. The allocation at line 207 (and 269) creates every
  row, so the model's arrays have no null rows.
- The model states preconditions where Java would throw, and it does not
  return error results. Each precondition also excludes some inputs that
  Java accepts, and those inputs are not covered either:
  - The rotations and `rotate2DArray` require a rectangular array with at
    least one row and one column (`Rectangular`).
    - Java throws on an array with no rows (`pixels[0]`), and on a row shorter
      than row 0.
    - Java accepts rows longer than row 0, because the loops read only
      `pixels[0].length` columns (ImageApp.java:176, 204, 266, 433).
      `rotate180` turns the leading block and leaves the longer rows' tails as
      they were. `rotate90`, `rotateNeg90` and `rotate2DArray` drop the tails.
    - Java accepts width 0. `rotate180` then does nothing, and `rotate90`,
      `rotateNeg90` and `rotate2DArray` return an empty array.
  - `insertImage` requires both images to be rectangular with at least one
    row and one column, and takes `nat` offsets. The bounds test at
    ImageApp.java:341 only compares against `largePixels.length` and
    `largePixels[0].length`. The small pixel is read after it (line 342), and
    the large image is written only for a pixel that is not near white
    (lines 347-348). Java therefore throws only in these cases:
    - the small image has no rows (`smallPixels[0]`, line 332);
    - the large image has no rows and some target row is negative
      (`largePixels[0]`, line 341);
    - a target passes the bounds test, but its small row is shorter than the
      column being read (line 342), whatever the colour would have been;
    - a small pixel that is not near white has a target that passes the
      bounds test, but whose row or column is negative, or that lies past
      the end of a large-image row shorter than row 0 (line 348).

    Every other such input is accepted. With non-negative offsets, an empty
    large image or width 0 in either image makes the call do nothing.
    Small-row tails past `smallPixels[0].length` are ignored. A near-white
    pixel whose target is out of range is skipped without a fault.
  - `copy2DArray` requires `Fits`: at most as many source rows as
    destination rows, and every source row at most as long as its
    destination row. Java throws only when a destination row is shorter than
    its source row, or when a non-empty source row has no destination row.
    Extra empty source rows are accepted (ImageApp.java:419-421).
- Java `int` overflow of `startRow + row` in `insertImage` is not modelled;
  integers are unbounded.
- Java `double` is modelled as exact `real`, so IEEE-754 rounding is not
  modelled, and neither are NaN and the infinities.
- Vectors.EqualsReflexiveSymmetric: reflexivity holds for reals only. In Java,
  `Math.abs(NaN - NaN) < 0.0001` is false (Vector1by2.java:107), so `equals`
  on two distinct vectors holding NaN is false.
- Matrices.EqualsReflexiveSymmetric: likewise, a matrix holding NaN is not
  `equals` to a distinct copy of itself in Java (Matrix2by2.java:148-151).
- `Math.toRadians`, `Math.cos` and `Math.sin` in `setRotationMatrix` are not
  modelled. The cosine and sine are parameters, so only the shape of the
  matrix is proved. The tolerance checks on the 90-degree and 45-degree
  matrices (VectorMatrixTest.java:91-97, 145-165) are not modelled, except the
  exact-value case of `Matrices.QuarterTurnValues`.
- `Math.round` and the rest of the unused rotation-matrix computation in
  `rotate90`/`rotateNeg90` are not modelled. The model keeps one worked example
  of it.
- `toString` on both classes is left out: it is Java number formatting.
- In both `equals` methods, the reference-equality shortcut and the
  null/class checks are not modelled. The model's `Equals` takes two values of
  the same type.
- ImageAppGUI.java (Swing user interface) and the harness of
  VectorMatrixTest.java are not part of this model. The test assertions are
  cited only as evidence for the example lemmas.
- ImageApp.Backfill: the contract states only when the count of black writes
  is zero, not the exact count for a partly written array.

=== FILE: colors.dfy ===
/**
  The colour of one pixel, as `java.awt.Color` holds it for the image
  transforms: three 8-bit channels and no alpha. The per-pixel colour maps
  of ImageApp (channel reordering, photographic negative, grayscale) and the
  near-white test used when compositing are defined here, one pixel at a time.
 */
module Colors {

  /** One colour channel. `java.awt.Color` rejects values outside 0..255,
      so every colour the transforms build must stay in this range. */
  type Channel = x: int | 0 <= x <= 255

  datatype Color = Color(red: Channel, green: Channel, blue: Channel)

  const Black: Color := Color(0, 0, 0)
  const White: Color := Color(255, 255, 255)

  /** True when all three channels are equal, i.e. the colour is a gray. */
  predicate IsGray(c: Color) {
    c.red == c.green == c.blue
  }

  /** The BRG variation: the new red is the old blue, the new green the old
      red, the new blue the old green. */
  function Brg(c: Color): (r: Color)
    ensures r.red == c.blue && r.green == c.red && r.blue == c.green
  {
    Color(c.blue, c.red, c.green)
  }

  /** Reordering the channels is a rotation of a three-element cycle. */
  lemma BrgPeriod3(c: Color)
    ensures Brg(Brg(Brg(c))) == c
    ensures Brg(Brg(c)) == Color(c.green, c.blue, c.red)
  {
  }

  /** The reordering leaves a colour alone exactly when it is a gray. */
  lemma BrgFixedIff(c: Color)
    ensures Brg(c) == c <==> IsGray(c)
  {
  }

  /** Photographic negative: every channel is reflected about the middle of
      its range, so each channel and its image add up to 255. */
  function Negative(c: Color): (r: Color)
    ensures r.red + c.red == 255 && r.green + c.green == 255 && r.blue + c.blue == 255
  {
    Color(255 - c.red, 255 - c.green, 255 - c.blue)
  }

  lemma NegativeInvolution(c: Color)
    ensures Negative(Negative(c)) == c
  {
  }

  /** 255 is odd, so no channel is its own complement: the negative of a
      colour always differs from it. */
  lemma NegativeMovesEveryColor(c: Color)
    ensures Negative(c) != c
  {
  }

  /** Grayscale: all three channels become the average of the old ones,
      with Java's truncating integer division (the sum is never negative,
      so truncation and floor agree). */
  function Gray(c: Color): (r: Color)
    ensures IsGray(r)
    ensures 3 * r.red <= c.red + c.green + c.blue < 3 * r.red + 3
  {
    var avg := (c.red + c.green + c.blue) / 3;
    Color(avg, avg, avg)
  }

  lemma GrayIdempotent(c: Color)
    ensures Gray(Gray(c)) == Gray(c)
  {
  }

  /** Grayscale leaves a colour alone exactly when it already is a gray. */
  lemma GrayFixedIff(c: Color)
    ensures Gray(c) == c <==> IsGray(c)
  {
  }

  /** The compositing background test: a pixel whose three channels are all
      at least 250 is treated as transparent white and not copied. */
  predicate NearWhite(c: Color) {
    c.red >= 250 && c.green >= 250 && c.blue >= 250
  }
}

=== FILE: grids.dfy ===
/**
  Row-major two-dimensional arrays, the shape of Java's `Pixel[][]` and
  `int[][]`, and the index remappings ImageApp performs on them. The element
  type is generic so that the same rotations serve pixel grids and integer
  arrays, which makes the agreement between `rotateNeg90` and
  `rotate2DArray` a statement about one definition.

  The functions here are reference definitions. Each states the shape of its
  result as its contract; the `Rotated*Lands` lemmas state where every source
  cell lands. The loop-by-loop replays of the Java methods (module ImageApp)
  are proved equal to them.
 */
module Grids {

  /** A row-major two-dimensional array; rows may differ in length unless
      `IsGrid` says otherwise. */
  type Grid<T> = seq<seq<T>>

  /** One slot of a freshly allocated Java reference array: `null` until a
      value is stored in it. */
  datatype Slot<T> = Empty | Filled(value: T) {
    /** The stored value, or `default` when nothing was stored. */
    function GetOr(default: T): T {
      if Filled? then value else default
    }
  }

  /** `g` has exactly `h` rows of exactly `w` cells each. */
  predicate IsGrid<T>(g: Grid<T>, h: nat, w: nat) {
    |g| == h && forall i :: 0 <= i < h ==> |g[i]| == w
  }

  /** A non-empty rectangular grid: the arrays ImageApp's rotations and the
      compositing step accept (they read `array[0].length` as the width). */
  predicate Rectangular<T>(g: Grid<T>) {
    |g| >= 1 && |g[0]| >= 1 && IsGrid(g, |g|, |g[0]|)
  }

  function Width<T>(g: Grid<T>): nat
    requires |g| >= 1
  {
    |g[0]|
  }

  /** An `h` by `w` array every cell of which holds `v`: what `new T[h][w]`
      allocates, with `v` the element type's default value. */
  function Uniform<T>(h: nat, w: nat, v: T): (g: Grid<T>)
    ensures IsGrid(g, h, w)
    ensures forall i, j :: 0 <= i < h && 0 <= j < w ==> g[i][j] == v
  {
    seq(h, _ => seq(w, _ => v))
  }

  /** The array after the assignment `g[i][j] = v`: that cell holds `v`,
      every other cell and every row length is unchanged. */
  function Put<T>(g: Grid<T>, i: nat, j: nat, v: T): (r: Grid<T>)
    requires i < |g| && j < |g[i]|
    ensures SameShape(r, g)
    ensures forall a, b :: 0 <= a < |g| && 0 <= b < |g[a]| ==>
              r[a][b] == if a == i && b == j then v else g[a][b]
  {
    g[i := g[i][j := v]]
  }

  /** `a` and `b` have the same number of rows and matching row lengths. */
  predicate SameShape<T, U>(a: Grid<T>, b: Grid<U>) {
    |a| == |b| && forall i :: 0 <= i < |a| ==> |a[i]| == |b[i]|
  }

  /** Two arrays with the same row lengths and the same cells are equal. */
  lemma CellwiseEqual<T>(a: Grid<T>, b: Grid<T>)
    requires SameShape(a, b)
    requires forall i, j :: 0 <= i < |a| && 0 <= j < |a[i]| ==> a[i][j] == b[i][j]
    ensures a == b
  {
    forall i | 0 <= i < |a|
      ensures a[i] == b[i]
    {
      assert |a[i]| == |b[i]|;
    }
  }

  /** Applies `f` to every cell, keeping every row length: the shape of the
      nested `for (row ...) for (col < pixels[row].length ...)` loops of the
      per-pixel colour maps, which accept ragged arrays. */
  function MapCells<T, U>(g: Grid<T>, f: T -> U): (r: Grid<U>)
    ensures SameShape(r, g)
    ensures forall i, j :: 0 <= i < |g| && 0 <= j < |g[i]| ==> r[i][j] == f(g[i][j])
  {
    seq(|g|, i requires 0 <= i < |g| => seq(|g[i]|, j requires 0 <= j < |g[i]| => f(g[i][j])))
  }

  /** Half turn: the dimensions stay h by w (`Rotated180Lands` says where
      each cell goes). */
  function Rotated180<T>(g: Grid<T>): (r: Grid<T>)
    requires Rectangular(g)
    ensures IsGrid(r, |g|, Width(g)) && Rectangular(r)
  {
    var h, w := |g|, |g[0]|;
    seq(h, a requires 0 <= a < h => seq(w, b requires 0 <= b < w => g[h - 1 - a][w - 1 - b]))
  }

  /** The mapping of ImageApp's `rotate90`: the result is w by h and its
      rows are the source's columns read bottom to top (`Rotated90Lands`). */
  function Rotated90<T>(g: Grid<T>): (r: Grid<T>)
    requires Rectangular(g)
    ensures IsGrid(r, Width(g), |g|) && Rectangular(r)
  {
    var h, w := |g|, |g[0]|;
    seq(w, a requires 0 <= a < w => seq(h, b requires 0 <= b < h => g[h - 1 - b][a]))
  }

  /** The mapping of ImageApp's `rotateNeg90` and of `rotate2DArray`: the
      result is w by h and its rows are the source's columns, last column
      first (`RotatedNeg90Lands`). */
  function RotatedNeg90<T>(g: Grid<T>): (r: Grid<T>)
    requires Rectangular(g)
    ensures IsGrid(r, Width(g), |g|) && Rectangular(r)
  {
    var h, w := |g|, |g[0]|;
    seq(w, a requires 0 <= a < w => seq(h, b requires 0 <= b < h => g[b][w - 1 - a]))
  }

  /** The cell of the half turn at (a, b), read back from the source. */
  lemma Rotated180At<T>(g: Grid<T>, a: nat, b: nat)
    requires Rectangular(g) && a < |g| && b < Width(g)
    ensures Rotated180(g)[a][b] == g[|g| - 1 - a][Width(g) - 1 - b]
  {
  }

  /** The cell of the `rotate90` result at (a, b), read back from the
      source. */
  lemma Rotated90At<T>(g: Grid<T>, a: nat, b: nat)
    requires Rectangular(g) && a < Width(g) && b < |g|
    ensures Rotated90(g)[a][b] == g[|g| - 1 - b][a]
  {
  }

  /** The cell of the `rotateNeg90` result at (a, b), read back from the
      source. */
  lemma RotatedNeg90At<T>(g: Grid<T>, a: nat, b: nat)
    requires Rectangular(g) && a < Width(g) && b < |g|
    ensures RotatedNeg90(g)[a][b] == g[b][Width(g) - 1 - a]
  {
  }

  /** Source cell (i, j) lands at (h-1-i, w-1-j) of the half turn. */
  lemma Rotated180Lands<T>(g: Grid<T>)
    requires Rectangular(g)
    ensures forall i, j :: 0 <= i < |g| && 0 <= j < Width(g) ==>
              Rotated180(g)[|g| - 1 - i][Width(g) - 1 - j] == g[i][j]
  {
    forall i, j | 0 <= i < |g| && 0 <= j < Width(g)
      ensures Rotated180(g)[|g| - 1 - i][Width(g) - 1 - j] == g[i][j]
    {
      Rotated180At(g, |g| - 1 - i, Width(g) - 1 - j);
    }
  }

  /** Source cell (i, j) lands at (j, h-1-i) of the `rotate90` result. */
  lemma Rotated90Lands<T>(g: Grid<T>)
    requires Rectangular(g)
    ensures forall i, j :: 0 <= i < |g| && 0 <= j < Width(g) ==>
              Rotated90(g)[j][|g| - 1 - i] == g[i][j]
  {
    forall i, j | 0 <= i < |g| && 0 <= j < Width(g)
      ensures Rotated90(g)[j][|g| - 1 - i] == g[i][j]
    {
      Rotated90At(g, j, |g| - 1 - i);
    }
  }

  /** Source cell (i, j) lands at (w-1-j, i) of the `rotateNeg90` result. */
  lemma RotatedNeg90Lands<T>(g: Grid<T>)
    requires Rectangular(g)
    ensures forall i, j :: 0 <= i < |g| && 0 <= j < Width(g) ==>
              RotatedNeg90(g)[Width(g) - 1 - j][i] == g[i][j]
  {
    forall i, j | 0 <= i < |g| && 0 <= j < Width(g)
      ensures RotatedNeg90(g)[Width(g) - 1 - j][i] == g[i][j]
    {
      RotatedNeg90At(g, Width(g) - 1 - j, i);
    }
  }

  /** Turning by 180 degrees twice restores the array. */
  lemma Rotated180Involution<T>(g: Grid<T>)
    requires Rectangular(g)
    ensures Rotated180(Rotated180(g)) == g
  {
    var h, w := |g|, |g[0]|;
    var q := Rotated180(g);
    var r := Rotated180(q);
    forall i, j | 0 <= i < h && 0 <= j < w
      ensures r[i][j] == g[i][j]
    {
      Rotated180At(q, i, j);
      Rotated180At(g, h - 1 - i, w - 1 - j);
    }
    CellwiseEqual(r, g);
  }

  /** `rotateNeg90` undoes `rotate90`: dimensions and every cell come back. */
  lemma RotatedNeg90Undoes90<T>(g: Grid<T>)
    requires Rectangular(g)
    ensures RotatedNeg90(Rotated90(g)) == g
  {
    var h, w := |g|, |g[0]|;
    var q := Rotated90(g);
    var r := RotatedNeg90(q);
    forall i, j | 0 <= i < h && 0 <= j < w
      ensures r[i][j] == g[i][j]
    {
      RotatedNeg90At(q, i, j);
      Rotated90At(g, j, h - 1 - i);
    }
    CellwiseEqual(r, g);
  }

  /** `rotate90` undoes `rotateNeg90`. */
  lemma Rotated90UndoesNeg90<T>(g: Grid<T>)
    requires Rectangular(g)
    ensures Rotated90(RotatedNeg90(g)) == g
  {
    var h, w := |g|, |g[0]|;
    var q := RotatedNeg90(g);
    var r := Rotated90(q);
    forall i, j | 0 <= i < h && 0 <= j < w
      ensures r[i][j] == g[i][j]
    {
      Rotated90At(q, i, j);
      RotatedNeg90At(g, w - 1 - j, i);
    }
    CellwiseEqual(r, g);
  }

  /** Two `rotate90` quarter turns make the half turn. */
  lemma Rotated90Twice<T>(g: Grid<T>)
    requires Rectangular(g)
    ensures Rotated90(Rotated90(g)) == Rotated180(g)
  {
    var h, w := |g|, |g[0]|;
    var half := Rotated180(g);
    var q := Rotated90(g);
    var r := Rotated90(q);
    forall a, b | 0 <= a < h && 0 <= b < w
      ensures r[a][b] == half[a][b]
    {
      Rotated90At(q, a, b);
      Rotated90At(g, w - 1 - b, a);
      Rotated180At(g, a, b);
    }
    CellwiseEqual(r, half);
  }

  /** Two `rotateNeg90` quarter turns make the half turn. */
  lemma RotatedNeg90Twice<T>(g: Grid<T>)
    requires Rectangular(g)
    ensures RotatedNeg90(RotatedNeg90(g)) == Rotated180(g)
  {
    var h, w := |g|, |g[0]|;
    var half := Rotated180(g);
    var q := RotatedNeg90(g);
    var r := RotatedNeg90(q);
    forall a, b | 0 <= a < h && 0 <= b < w
      ensures r[a][b] == half[a][b]
    {
      RotatedNeg90At(q, a, b);
      RotatedNeg90At(g, b, h - 1 - a);
      Rotated180At(g, a, b);
    }
    CellwiseEqual(r, half);
  }

  /** Four quarter turns in either direction restore the array. */
  lemma FourQuarterTurns<T>(g: Grid<T>)
    requires Rectangular(g)
    ensures Rotated90(Rotated90(Rotated90(Rotated90(g)))) == g
    ensures RotatedNeg90(RotatedNeg90(RotatedNeg90(RotatedNeg90(g)))) == g
  {
    Rotated90Twice(g);
    Rotated90Twice(Rotated180(g));
    RotatedNeg90Twice(g);
    RotatedNeg90Twice(Rotated180(g));
    Rotated180Involution(g);
  }

  /** A half turn after a `rotate90` quarter turn is a `rotateNeg90`
      quarter turn. */
  lemma HalfTurnAfterQuarterTurn<T>(g: Grid<T>)
    requires Rectangular(g)
    ensures Rotated180(Rotated90(g)) == RotatedNeg90(g)
  {
    var h, w := |g|, |g[0]|;
    var q := Rotated90(g);
    var r := Rotated180(q);
    var n := RotatedNeg90(g);
    forall a, b | 0 <= a < w && 0 <= b < h
      ensures r[a][b] == n[a][b]
    {
      Rotated180At(q, a, b);
      Rotated90At(g, w - 1 - a, h - 1 - b);
      RotatedNeg90At(g, a, b);
    }
    CellwiseEqual(r, n);
  }

  /** Three quarter turns one way are one quarter turn the other way. */
  lemma ThreeQuarterTurns<T>(g: Grid<T>)
    requires Rectangular(g)
    ensures Rotated90(Rotated90(Rotated90(g))) == RotatedNeg90(g)
  {
    Rotated90Twice(Rotated90(g));
    HalfTurnAfterQuarterTurn(g);
  }
}

=== FILE: image_app.dfy ===
/**
  The pixel-grid engine of ImageApp: the per-pixel colour maps, the 180 and
  90 degree rotations, the white-keyed composite, and the two `int[][]`
  utilities `copy2DArray` and `rotate2DArray`.

  A pixel is its colour (`Colors.Color`); a `Pixel[][]` is a `Grid<Color>`.
  Operations that change an array in place return the new contents.
  The functions below are reference definitions. The methods replay the
  Java loops write by write, including the null slots of freshly allocated
  arrays and the black backfill, and are proved to produce exactly the
  reference result.
 */
module ImageApp {
  import opened Colors
  import opened Grids
  import Vectors
  import Matrices

  // ---------------------------------------------------------------------
  // Per-pixel colour maps (they visit `pixels[row].length` cells of each
  // row, so ragged arrays are accepted).
  // ---------------------------------------------------------------------

  /** `changeColor`: every pixel's (R, G, B) becomes (B, R, G). */
  function ChangeColor(pixels: Grid<Color>): (r: Grid<Color>)
    ensures SameShape(r, pixels)
    ensures forall i, j :: 0 <= i < |pixels| && 0 <= j < |pixels[i]| ==>
              && r[i][j].red == pixels[i][j].blue
              && r[i][j].green == pixels[i][j].red
              && r[i][j].blue == pixels[i][j].green
  {
    MapCells(pixels, Brg)
  }

  /** `negativeColor`: every channel c becomes 255 - c. */
  function NegativeColor(pixels: Grid<Color>): (r: Grid<Color>)
    ensures SameShape(r, pixels)
    ensures forall i, j :: 0 <= i < |pixels| && 0 <= j < |pixels[i]| ==>
              && r[i][j].red + pixels[i][j].red == 255
              && r[i][j].green + pixels[i][j].green == 255
              && r[i][j].blue + pixels[i][j].blue == 255
  {
    MapCells(pixels, Negative)
  }

  /** `grayscale`: every pixel becomes the gray of its truncated channel
      average. */
  function Grayscale(pixels: Grid<Color>): (r: Grid<Color>)
    ensures SameShape(r, pixels)
    ensures forall i, j :: 0 <= i < |pixels| && 0 <= j < |pixels[i]| ==>
              && IsGray(r[i][j])
              && 3 * r[i][j].red <= pixels[i][j].red + pixels[i][j].green + pixels[i][j].blue
              && pixels[i][j].red + pixels[i][j].green + pixels[i][j].blue < 3 * r[i][j].red + 3
  {
    MapCells(pixels, Gray)
  }

  /** Three BRG reorderings restore every pixel. */
  lemma ChangeColorPeriod3(pixels: Grid<Color>)
    ensures ChangeColor(ChangeColor(ChangeColor(pixels))) == pixels
  {
    var r := ChangeColor(ChangeColor(ChangeColor(pixels)));
    forall i, j | 0 <= i < |pixels| && 0 <= j < |pixels[i]|
      ensures r[i][j] == pixels[i][j]
    {
      BrgPeriod3(pixels[i][j]);
    }
    CellwiseEqual(r, pixels);
  }

  /** The negative of the negative is the original image. */
  lemma NegativeColorInvolution(pixels: Grid<Color>)
    ensures NegativeColor(NegativeColor(pixels)) == pixels
  {
    var r := NegativeColor(NegativeColor(pixels));
    forall i, j | 0 <= i < |pixels| && 0 <= j < |pixels[i]|
      ensures r[i][j] == pixels[i][j]
    {
      NegativeInvolution(pixels[i][j]);
    }
    CellwiseEqual(r, pixels);
  }

  /** Grayscale applied twice is grayscale applied once. */
  lemma GrayscaleIdempotent(pixels: Grid<Color>)
    ensures Grayscale(Grayscale(pixels)) == Grayscale(pixels)
  {
    var once := Grayscale(pixels);
    var twice := Grayscale(once);
    forall i, j | 0 <= i < |once| && 0 <= j < |once[i]|
      ensures twice[i][j] == once[i][j]
    {
      GrayIdempotent(pixels[i][j]);
    }
    CellwiseEqual(twice, once);
  }

  /** Grayscale leaves an image alone exactly when every pixel already is
      a gray. */
  lemma GrayscaleFixedIff(pixels: Grid<Color>)
    ensures Grayscale(pixels) == pixels <==>
            forall i, j :: 0 <= i < |pixels| && 0 <= j < |pixels[i]| ==> IsGray(pixels[i][j])
  {
    if forall i, j :: 0 <= i < |pixels| && 0 <= j < |pixels[i]| ==> IsGray(pixels[i][j]) {
      var r := Grayscale(pixels);
      forall i, j | 0 <= i < |pixels| && 0 <= j < |pixels[i]|
        ensures r[i][j] == pixels[i][j]
      {
        GrayFixedIff(pixels[i][j]);
      }
      CellwiseEqual(r, pixels);
    }
  }

  // ---------------------------------------------------------------------
  // Rotations, replayed loop by loop.
  // ---------------------------------------------------------------------

  /** `rotate180`: every pixel is first stored at its mirrored position in
      a scratch array of null slots, then the scratch array is copied back.
      The copy-back never meets a null slot, and the result is the half
      turn. */
  method Rotate180<T>(pixels: Grid<T>) returns (result: Grid<T>)
    requires Rectangular(pixels)
    ensures result == Rotated180(pixels)
  {
    var height, width := |pixels|, |pixels[0]|;
    ghost var target := Rotated180(pixels);
    var temp := Uniform<Slot<T>>(height, width, Empty);
    var row := 0;
    while row < height
      invariant 0 <= row <= height
      invariant IsGrid(temp, height, width)
      invariant forall a, b :: 0 <= a < height && 0 <= b < width ==>
                  temp[a][b] == if height - 1 - a < row then Filled(target[a][b]) else Empty
    {
      var col := 0;
      while col < width
        invariant 0 <= col <= width
        invariant IsGrid(temp, height, width)
        invariant forall a, b :: 0 <= a < height && 0 <= b < width ==>
                    temp[a][b] == if height - 1 - a < row || (height - 1 - a == row && width - 1 - b < col)
                                  then Filled(target[a][b]) else Empty
      {
        Rotated180At(pixels, height - 1 - row, width - 1 - col);
        temp := Put(temp, height - 1 - row, width - 1 - col, Filled(pixels[row][col]));
        col := col + 1;
      }
      row := row + 1;
    }
    result := pixels;
    row := 0;
    while row < height
      invariant 0 <= row <= height
      invariant IsGrid(result, height, width)
      invariant forall a, b :: 0 <= a < height && 0 <= b < width ==>
                  result[a][b] == if a < row then target[a][b] else pixels[a][b]
    {
      var col := 0;
      while col < width
        invariant 0 <= col <= width
        invariant IsGrid(result, height, width)
        invariant forall a, b :: 0 <= a < height && 0 <= b < width ==>
                    result[a][b] == if a < row || (a == row && b < col)
                                    then target[a][b] else pixels[a][b]
      {
        result := Put(result, row, col, temp[row][col].value);
        col := col + 1;
      }
      row := row + 1;
    }
    CellwiseEqual(result, target);
  }

  /** The black backfill that ends `rotate90` and `rotateNeg90`: every slot
      still null receives `black`. `backfilled` counts those slots, so it is
      zero exactly when every slot had been written. */
  method Backfill<T>(slots: Grid<Slot<T>>, h: nat, w: nat, black: T) returns (grid: Grid<T>, backfilled: nat)
    requires IsGrid(slots, h, w)
    ensures IsGrid(grid, h, w)
    ensures forall a, b :: 0 <= a < h && 0 <= b < w ==> grid[a][b] == slots[a][b].GetOr(black)
    ensures backfilled == 0 <==> forall a, b :: 0 <= a < h && 0 <= b < w ==> slots[a][b].Filled?
  {
    grid := [];
    backfilled := 0;
    var row := 0;
    while row < h
      invariant 0 <= row <= h
      invariant IsGrid(grid, row, w)
      invariant forall a, b :: 0 <= a < row && 0 <= b < w ==> grid[a][b] == slots[a][b].GetOr(black)
      invariant backfilled == 0 <==> forall a, b :: 0 <= a < row && 0 <= b < w ==> slots[a][b].Filled?
    {
      var line: seq<T> := [];
      var col := 0;
      while col < w
        invariant 0 <= col <= w
        invariant |line| == col
        invariant forall b :: 0 <= b < col ==> line[b] == slots[row][b].GetOr(black)
        invariant backfilled == 0 <==>
                    && (forall a, b :: 0 <= a < row && 0 <= b < w ==> slots[a][b].Filled?)
                    && (forall b :: 0 <= b < col ==> slots[row][b].Filled?)
      {
        if slots[row][col].Empty? {
          line := line + [black];
          backfilled := backfilled + 1;
        } else {
          line := line + [slots[row][col].value];
        }
        col := col + 1;
      }
      grid := grid + [line];
      row := row + 1;
    }
  }

  /** `rotate90`: a width-by-height array of null slots is allocated (every
      row present), pixel (row, col) is stored at (col, height-1-row), and
      null slots are then filled with `black`. The bounds check before each
      store always passes, every slot is written exactly once, so the
      backfill writes nothing and the result is `Rotated90`. */
  method Rotate90<T>(pixels: Grid<T>, black: T) returns (rotated: Grid<T>, backfilled: nat)
    requires Rectangular(pixels)
    ensures rotated == Rotated90(pixels)
    ensures backfilled == 0
  {
    var height, width := |pixels|, |pixels[0]|;
    ghost var target := Rotated90(pixels);
    var slots := Uniform<Slot<T>>(width, height, Empty);
    var row := 0;
    while row < height
      invariant 0 <= row <= height
      invariant IsGrid(slots, width, height)
      invariant forall a, b :: 0 <= a < width && 0 <= b < height ==>
                  slots[a][b] == if height - 1 - b < row then Filled(target[a][b]) else Empty
    {
      var col := 0;
      while col < width
        invariant 0 <= col <= width
        invariant IsGrid(slots, width, height)
        invariant forall a, b :: 0 <= a < width && 0 <= b < height ==>
                    slots[a][b] == if height - 1 - b < row || (height - 1 - b == row && a < col)
                                   then Filled(target[a][b]) else Empty
      {
        var targetRow, targetCol := col, height - 1 - row;
        if 0 <= targetRow < width && 0 <= targetCol < height {
          assert slots[targetRow][targetCol] == Empty;
          Rotated90At(pixels, targetRow, targetCol);
          slots := Put(slots, targetRow, targetCol, Filled(pixels[row][col]));
        }
        col := col + 1;
      }
      row := row + 1;
    }
    rotated, backfilled := Backfill(slots, width, height, black);
    CellwiseEqual(rotated, target);
  }

  /** `rotateNeg90`: as `rotate90`, but pixel (row, col) is stored at
      (width-1-col, row). Again every slot is written exactly once, the
      backfill writes nothing and the result is `RotatedNeg90`. */
  method RotateNeg90<T>(pixels: Grid<T>, black: T) returns (rotated: Grid<T>, backfilled: nat)
    requires Rectangular(pixels)
    ensures rotated == RotatedNeg90(pixels)
    ensures backfilled == 0
  {
    var height, width := |pixels|, |pixels[0]|;
    ghost var target := RotatedNeg90(pixels);
    var slots := Uniform<Slot<T>>(width, height, Empty);
    var row := 0;
    while row < height
      invariant 0 <= row <= height
      invariant IsGrid(slots, width, height)
      invariant forall a, b :: 0 <= a < width && 0 <= b < height ==>
                  slots[a][b] == if b < row then Filled(target[a][b]) else Empty
    {
      var col := 0;
      while col < width
        invariant 0 <= col <= width
        invariant IsGrid(slots, width, height)
        invariant forall a, b :: 0 <= a < width && 0 <= b < height ==>
                    slots[a][b] == if b < row || (b == row && width - 1 - a < col)
                                   then Filled(target[a][b]) else Empty
      {
        var targetRow, targetCol := width - 1 - col, row;
        if 0 <= targetRow < width && 0 <= targetCol < height {
          assert slots[targetRow][targetCol] == Empty;
          RotatedNeg90At(pixels, targetRow, targetCol);
          slots := Put(slots, targetRow, targetCol, Filled(pixels[row][col]));
        }
        col := col + 1;
      }
      row := row + 1;
    }
    rotated, backfilled := Backfill(slots, width, height, black);
    CellwiseEqual(rotated, target);
  }

  /** `rotate2DArray`: an m-by-n array of zeros is allocated and
      `rotated[m-1-j][i] = values[i][j]` is stored for every cell. No zero
      survives, and the result is the `rotateNeg90` mapping. */
  method Rotate2DArray(values: Grid<int>) returns (rotated: Grid<int>)
    requires Rectangular(values)
    ensures rotated == RotatedNeg90(values)
  {
    var n, m := |values|, |values[0]|;
    ghost var target := RotatedNeg90(values);
    rotated := Uniform(m, n, 0);
    var i := 0;
    while i < n
      invariant 0 <= i <= n
      invariant IsGrid(rotated, m, n)
      invariant forall a, b :: 0 <= a < m && 0 <= b < n ==>
                  rotated[a][b] == if b < i then target[a][b] else 0
    {
      var j := 0;
      while j < m
        invariant 0 <= j <= m
        invariant IsGrid(rotated, m, n)
        invariant forall a, b :: 0 <= a < m && 0 <= b < n ==>
                    rotated[a][b] == if b < i || (b == i && m - 1 - a < j) then target[a][b] else 0
      {
        RotatedNeg90At(values, m - 1 - j, i);
        rotated := Put(rotated, m - 1 - j, i, values[i][j]);
        j := j + 1;
      }
      i := i + 1;
    }
    CellwiseEqual(rotated, target);
  }

  /** `rotate2DArray` and `rotateNeg90` share one mapping, and on the 2x3
      array 1 2 3 / 4 5 6 it differs from the `rotate90` mapping. */
  lemma RotationExamples()
    ensures RotatedNeg90<int>([[1, 2, 3], [4, 5, 6]]) == [[3, 6], [2, 5], [1, 4]]
    ensures Rotated90<int>([[1, 2, 3], [4, 5, 6]]) == [[4, 1], [5, 2], [6, 3]]
  {
    var g: Grid<int> := [[1, 2, 3], [4, 5, 6]];
    CellwiseEqual(RotatedNeg90(g), [[3, 6], [2, 5], [1, 4]]);
    CellwiseEqual(Rotated90(g), [[4, 1], [5, 2], [6, 3]]);
  }

  /** The rotation-matrix coordinates `rotate90` computes and then ignores:
      with the exact cosine and sine of -90 degrees and the centre
      (height/2, width/2), pixel (0, 0) of a 2x2 image goes to (0, 2),
      outside the 2-column result, while the index formula used instead
      sends it to (0, 1). */
  lemma UnusedMatrixPathLeavesGrid()
    ensures var m := Matrices.SetRotationMatrix(Matrices.Identity(), 0.0, -1.0);
            var centre := Vectors.Vector2(2.0 / 2.0, 2.0 / 2.0);
            var v := Matrices.Apply(m, Vectors.Vector2(0.0 - centre.row, 0.0 - centre.col));
            v.row + centre.row == 0.0 && v.col + centre.col == 2.0
  {
  }

  // ---------------------------------------------------------------------
  // Compositing.
  // ---------------------------------------------------------------------

  /** Cell (a, b) of the large image lies under the small image placed at
      (startRow, startCol). */
  predicate Covers<T>(small: Grid<T>, startRow: nat, startCol: nat, a: int, b: int)
    requires Rectangular(small)
  {
    startRow <= a < startRow + |small| && startCol <= b < startCol + Width(small)
  }

  /** The image `insertImage` leaves in `large`: every small pixel that is
      not near white and falls inside the large image replaces the pixel
      under it; near-white pixels, clipped pixels and everything outside
      the footprint leave `large` as it was. */
  function Inserted(large: Grid<Color>, small: Grid<Color>, startRow: nat, startCol: nat): (r: Grid<Color>)
    requires Rectangular(large) && Rectangular(small)
    ensures IsGrid(r, |large|, Width(large))
    ensures forall i, j :: 0 <= i < |small| && 0 <= j < Width(small)
                           && startRow + i < |large| && startCol + j < Width(large) ==>
              r[startRow + i][startCol + j]
                == if NearWhite(small[i][j]) then large[startRow + i][startCol + j] else small[i][j]
    ensures forall a, b :: 0 <= a < |large| && 0 <= b < Width(large) && !Covers(small, startRow, startCol, a, b) ==>
              r[a][b] == large[a][b]
  {
    var h, w := |large|, |large[0]|;
    seq(h, a requires 0 <= a < h => seq(w, b requires 0 <= b < w =>
      if Covers(small, startRow, startCol, a, b) && !NearWhite(small[a - startRow][b - startCol])
      then small[a - startRow][b - startCol]
      else large[a][b]))
  }

  /** `insertImage`: walks the small image row by row, skips targets past
      the last row or column of the large image, and stores every pixel
      that is not near white. The large image ends up as `Inserted`. */
  method InsertImage(largePixels: Grid<Color>, smallPixels: Grid<Color>, startRow: nat, startCol: nat)
    returns (result: Grid<Color>)
    requires Rectangular(largePixels) && Rectangular(smallPixels)
    ensures result == Inserted(largePixels, smallPixels, startRow, startCol)
  {
    ghost var target := Inserted(largePixels, smallPixels, startRow, startCol);
    var height, width := |largePixels|, |largePixels[0]|;
    var smallHeight, smallWidth := |smallPixels|, |smallPixels[0]|;
    result := largePixels;
    var row := 0;
    while row < smallHeight
      invariant 0 <= row <= smallHeight
      invariant IsGrid(result, height, width)
      invariant forall a, b :: 0 <= a < height && 0 <= b < width ==>
                  result[a][b] == if a < startRow + row then target[a][b] else largePixels[a][b]
    {
      var col := 0;
      while col < smallWidth
        invariant 0 <= col <= smallWidth
        invariant IsGrid(result, height, width)
        invariant forall a, b :: 0 <= a < height && 0 <= b < width ==>
                    result[a][b] == if a < startRow + row || (a == startRow + row && b < startCol + col)
                                    then target[a][b] else largePixels[a][b]
      {
        var targetRow, targetCol := startRow + row, startCol + col;
        if targetRow < height && targetCol < width {
          var smallColor := smallPixels[row][col];
          if smallColor.red < 250 || smallColor.green < 250 || smallColor.blue < 250 {
            result := Put(result, targetRow, targetCol, smallColor);
          }
        }
        col := col + 1;
      }
      row := row + 1;
    }
    CellwiseEqual(result, target);
  }

  /** An image that is near white everywhere changes nothing. */
  lemma InsertWhiteChangesNothing(large: Grid<Color>, small: Grid<Color>, startRow: nat, startCol: nat)
    requires Rectangular(large) && Rectangular(small)
    requires forall i, j :: 0 <= i < |small| && 0 <= j < Width(small) ==> NearWhite(small[i][j])
    ensures Inserted(large, small, startRow, startCol) == large
  {
    var r := Inserted(large, small, startRow, startCol);
    forall a, b | 0 <= a < |large| && 0 <= b < Width(large)
      ensures r[a][b] == large[a][b]
    {
      if Covers(small, startRow, startCol, a, b) {
        assert NearWhite(small[a - startRow][b - startCol]);
      }
    }
    CellwiseEqual(r, large);
  }

  /** A placement entirely below or right of the large image is clipped
      away completely. */
  lemma InsertOutsideChangesNothing(large: Grid<Color>, small: Grid<Color>, startRow: nat, startCol: nat)
    requires Rectangular(large) && Rectangular(small)
    requires startRow >= |large| || startCol >= Width(large)
    ensures Inserted(large, small, startRow, startCol) == large
  {
    CellwiseEqual(Inserted(large, small, startRow, startCol), large);
  }

  /** Inserting the same image at the same place twice is inserting it
      once. */
  lemma InsertIdempotent(large: Grid<Color>, small: Grid<Color>, startRow: nat, startCol: nat)
    requires Rectangular(large) && Rectangular(small)
    ensures Inserted(Inserted(large, small, startRow, startCol), small, startRow, startCol)
         == Inserted(large, small, startRow, startCol)
  {
    var once := Inserted(large, small, startRow, startCol);
    var twice := Inserted(once, small, startRow, startCol);
    forall a, b | 0 <= a < |large| && 0 <= b < Width(large)
      ensures twice[a][b] == once[a][b]
    {
      if Covers(small, startRow, startCol, a, b) {
        var i, j := a - startRow, b - startCol;
        assert twice[startRow + i][startCol + j] == once[startRow + i][startCol + j];
      }
    }
    CellwiseEqual(twice, once);
  }

  /** A 4x4 black image with the 2x2 image white white / white red
      inserted at (1, 1): only (2, 2) changes, and it becomes red. */
  lemma InsertExample()
    ensures var red := Color(255, 0, 0);
            var large := Uniform(4, 4, Black);
            Inserted(large, [[White, White], [White, red]], 1, 1) == Put(large, 2, 2, red)
  {
    var red := Color(255, 0, 0);
    var large := Uniform(4, 4, Black);
    var small := [[White, White], [White, red]];
    var r := Inserted(large, small, 1, 1);
    var expected := Put(large, 2, 2, red);
    forall a, b | 0 <= a < 4 && 0 <= b < 4
      ensures r[a][b] == expected[a][b]
    {
      if Covers(small, 1, 1, a, b) {
        assert r[1 + (a - 1)][1 + (b - 1)] == expected[a][b];
      }
    }
    CellwiseEqual(r, expected);
  }

  // ---------------------------------------------------------------------
  // Copying an int[][].
  // ---------------------------------------------------------------------

  /** Every source row has a destination row at least as long, which is
      what `copy2DArray` needs to store every cell without an index fault. */
  predicate Fits<T>(source: Grid<T>, destination: Grid<T>) {
    |source| <= |destination| && forall i :: 0 <= i < |source| ==> |source[i]| <= |destination[i]|
  }

  /** The destination after `copy2DArray`: cells under the source hold the
      source's values, every other cell and every row length is as before. */
  function Copied(source: Grid<int>, destination: Grid<int>): (r: Grid<int>)
    requires Fits(source, destination)
    ensures SameShape(r, destination)
    ensures forall i, j :: 0 <= i < |destination| && 0 <= j < |destination[i]| ==>
              r[i][j] == if i < |source| && j < |source[i]| then source[i][j] else destination[i][j]
  {
    seq(|destination|, i requires 0 <= i < |destination| =>
      if i < |source| then source[i] + destination[i][|source[i]|..] else destination[i])
  }

  /** `copy2DArray`: stores `source[i][j]` into `destination[i][j]` for
      every source cell, row by row. */
  method Copy2DArray(source: Grid<int>, destination: Grid<int>) returns (result: Grid<int>)
    requires Fits(source, destination)
    ensures result == Copied(source, destination)
  {
    result := destination;
    var i := 0;
    while i < |source|
      invariant 0 <= i <= |source|
      invariant SameShape(result, destination)
      invariant forall a, b :: 0 <= a < |destination| && 0 <= b < |destination[a]| ==>
                  result[a][b] == if a < i && b < |source[a]| then source[a][b] else destination[a][b]
    {
      var j := 0;
      while j < |source[i]|
        invariant 0 <= j <= |source[i]|
        invariant SameShape(result, destination)
        invariant forall a, b :: 0 <= a < |destination| && 0 <= b < |destination[a]| ==>
                    result[a][b] == if (a < i && b < |source[a]|) || (a == i && b < j)
                                    then source[a][b] else destination[a][b]
      {
        result := Put(result, i, j, source[i][j]);
        j := j + 1;
      }
      i := i + 1;
    }
    CellwiseEqual(result, Copied(source, destination));
  }

  /** Copying onto an array of the same shape yields the source itself. */
  lemma CopiedOntoSameShape(source: Grid<int>, destination: Grid<int>)
    requires SameShape(source, destination)
    ensures Fits(source, destination)
    ensures Copied(source, destination) == source
  {
    CellwiseEqual(Copied(source, destination), source);
  }

  /** Copying twice is copying once. */
  lemma CopiedIdempotent(source: Grid<int>, destination: Grid<int>)
    requires Fits(source, destination)
    ensures Fits(source, Copied(source, destination))
    ensures Copied(source, Copied(source, destination)) == Copied(source, destination)
  {
    var once := Copied(source, destination);
    CellwiseEqual(Copied(source, once), once);
  }
}

=== FILE: matrices.dfy ===
/**
  The 2x2 matrix of `Matrix2by2`, entries a00 a01 / a10 a11 in row-major
  order, with the products the class offers. Java `double` is modelled as
  `real`. The angle conversion and `Math.cos`/`Math.sin` of
  `setRotationMatrix` are not modelled: the rotation matrix is built from
  the cosine and sine values, whatever they are.
 */
module Matrices {
  import Vectors

  datatype Matrix2 = Matrix2(a00: real, a01: real, a10: real, a11: real)

  /** The default constructor: the identity matrix. */
  function Identity(): Matrix2 {
    Matrix2(1.0, 0.0, 0.0, 1.0)
  }

  /** The copy constructor: a matrix with the same four entries. */
  function CopyOf(m: Matrix2): (r: Matrix2)
    ensures r == m
  {
    Matrix2(m.a00, m.a01, m.a10, m.a11)
  }

  /** `setA00`: that entry becomes `x`, the other three stay. */
  function WithA00(m: Matrix2, x: real): (r: Matrix2)
    ensures r.a00 == x && r.a01 == m.a01 && r.a10 == m.a10 && r.a11 == m.a11
  {
    m.(a00 := x)
  }

  /** `setA01`: that entry becomes `x`, the other three stay. */
  function WithA01(m: Matrix2, x: real): (r: Matrix2)
    ensures r.a01 == x && r.a00 == m.a00 && r.a10 == m.a10 && r.a11 == m.a11
  {
    m.(a01 := x)
  }

  /** `setA10`: that entry becomes `x`, the other three stay. */
  function WithA10(m: Matrix2, x: real): (r: Matrix2)
    ensures r.a10 == x && r.a00 == m.a00 && r.a01 == m.a01 && r.a11 == m.a11
  {
    m.(a10 := x)
  }

  /** `setA11`: that entry becomes `x`, the other three stay. */
  function WithA11(m: Matrix2, x: real): (r: Matrix2)
    ensures r.a11 == x && r.a00 == m.a00 && r.a01 == m.a01 && r.a10 == m.a10
  {
    m.(a11 := x)
  }

  /** `setMatrix`: all four entries are overwritten, so nothing of the old
      matrix survives. */
  function SetMatrix(m: Matrix2, a00: real, a01: real, a10: real, a11: real): (r: Matrix2)
    ensures r.a00 == a00 && r.a01 == a01 && r.a10 == a10 && r.a11 == a11
  {
    Matrix2(a00, a01, a10, a11)
  }

  /** `setRotationMatrix`, given the cosine and sine of the angle: the
      matrix [[cos, -sin], [sin, cos]]. Every entry is overwritten. */
  function SetRotationMatrix(m: Matrix2, cos: real, sin: real): (r: Matrix2)
    ensures r.a00 == r.a11 && r.a01 == -r.a10
    ensures r.a00 == cos && r.a10 == sin
  {
    Matrix2(cos, -sin, sin, cos)
  }

  /** `multiply(double)`: every entry scaled. */
  function Scale(m: Matrix2, s: real): Matrix2 {
    Matrix2(m.a00 * s, m.a01 * s, m.a10 * s, m.a11 * s)
  }

  /** `multiply(Matrix2by2)`: the row-by-column product `m * o`. */
  function Multiply(m: Matrix2, o: Matrix2): Matrix2 {
    Matrix2(m.a00 * o.a00 + m.a01 * o.a10,
            m.a00 * o.a01 + m.a01 * o.a11,
            m.a10 * o.a00 + m.a11 * o.a10,
            m.a10 * o.a01 + m.a11 * o.a11)
  }

  /** `multiply(Vector1by2)`: the matrix applied to a column vector. */
  function Apply(m: Matrix2, v: Vectors.Vector2): Vectors.Vector2 {
    Vectors.Vector2(m.a00 * v.row + m.a01 * v.col, m.a10 * v.row + m.a11 * v.col)
  }

  /** The static `multiply(vector, matrix)`, which delegates to the instance
      method: the matrix still acts on the left. */
  function ApplyStatic(v: Vectors.Vector2, m: Matrix2): (r: Vectors.Vector2)
    ensures r == Apply(m, v)
  {
    Vectors.Vector2(m.a00 * v.row + m.a01 * v.col, m.a10 * v.row + m.a11 * v.col)
  }

  /** `equals`: all four entries within the tolerance. */
  predicate Equals(m: Matrix2, o: Matrix2) {
    && Vectors.Close(m.a00, o.a00)
    && Vectors.Close(m.a01, o.a01)
    && Vectors.Close(m.a10, o.a10)
    && Vectors.Close(m.a11, o.a11)
  }

  /** The identity leaves every vector and every matrix alone. */
  lemma IdentityLaws(m: Matrix2, v: Vectors.Vector2)
    ensures Apply(Identity(), v) == v
    ensures Multiply(m, Identity()) == m
    ensures Multiply(Identity(), m) == m
  {
  }

  /** Multiplying matrices composes their actions on vectors. */
  lemma MultiplyComposes(m: Matrix2, o: Matrix2, v: Vectors.Vector2)
    ensures Apply(Multiply(m, o), v) == Apply(m, Apply(o, v))
  {
  }

  /** Scaling a matrix scales its action on every vector. */
  lemma ScaleApply(m: Matrix2, s: real, v: Vectors.Vector2)
    ensures Apply(Scale(m, s), v) == Vectors.Scale(Apply(m, v), s)
  {
  }

  /** Two rotation matrices multiply to the rotation by the summed angle,
      written with the angle-addition formulas. */
  lemma RotationsCompose(c1: real, s1: real, c2: real, s2: real, m: Matrix2)
    ensures Multiply(SetRotationMatrix(m, c1, s1), SetRotationMatrix(m, c2, s2))
         == SetRotationMatrix(m, c1 * c2 - s1 * s2, s1 * c2 + c1 * s2)
  {
  }

  /** When cos^2 + sin^2 = 1, as for every genuine angle, the rotation
      matrix preserves dot products, hence lengths and angles. */
  lemma RotationPreservesDot(m: Matrix2, cos: real, sin: real, u: Vectors.Vector2, v: Vectors.Vector2)
    requires cos * cos + sin * sin == 1.0
    ensures var r := SetRotationMatrix(m, cos, sin);
            Vectors.Dot(Apply(r, u), Apply(r, v)) == Vectors.Dot(u, v)
  {
  }

  /** With the exact cosine and sine of 90 degrees the rotation sends (1,0)
      to (0,1) and (0,1) to (-1,0); with those of -90 degrees (1,0) goes to
      (0,-1). */
  lemma QuarterTurnValues(m: Matrix2)
    ensures Apply(SetRotationMatrix(m, 0.0, 1.0), Vectors.Vector2(1.0, 0.0)) == Vectors.Vector2(0.0, 1.0)
    ensures Apply(SetRotationMatrix(m, 0.0, 1.0), Vectors.Vector2(0.0, 1.0)) == Vectors.Vector2(-1.0, 0.0)
    ensures Apply(SetRotationMatrix(m, 0.0, -1.0), Vectors.Vector2(1.0, 0.0)) == Vectors.Vector2(0.0, -1.0)
  {
  }

  /** The product and scaling values the matrix tests check. */
  lemma MatrixExamples()
    ensures Multiply(Matrix2(1.0, 2.0, 3.0, 4.0), Matrix2(2.0, 0.0, 1.0, 2.0)) == Matrix2(4.0, 4.0, 10.0, 8.0)
    ensures Scale(Matrix2(1.0, 2.0, 3.0, 4.0), 2.0) == Matrix2(2.0, 4.0, 6.0, 8.0)
  {
  }

  /** The setter sequence of the matrix tests: the four setters give
      [[5,6],[7,8]], and `setMatrix` then resets it to [[1,2],[3,4]]. */
  lemma SetterExamples()
    ensures var m := WithA11(WithA10(WithA01(WithA00(Matrix2(1.0, 2.0, 3.0, 4.0), 5.0), 6.0), 7.0), 8.0);
            m == Matrix2(5.0, 6.0, 7.0, 8.0) && SetMatrix(m, 1.0, 2.0, 3.0, 4.0) == Matrix2(1.0, 2.0, 3.0, 4.0)
  {
  }

  /** The default-constructed identity keeps (1,0), as the tests check. */
  lemma IdentityExample()
    ensures Apply(Identity(), Vectors.Vector2(1.0, 0.0)) == Vectors.Vector2(1.0, 0.0)
  {
  }

  /** `equals` is reflexive and symmetric. */
  lemma EqualsReflexiveSymmetric(m: Matrix2, o: Matrix2)
    ensures Equals(m, m)
    ensures Equals(m, o) <==> Equals(o, m)
  {
  }
}

=== FILE: vectors.dfy ===
/**
  The 2-component vector of `Vector1by2`: a (row, col) pair of numbers used
  for pixel coordinates. Java `double` is modelled as `real`, so the
  arithmetic here is exact; every operation returns a new value and leaves
  its operands as they were, which a value type gives for free.
 */
module Vectors {

  /** The absolute tolerance of both `equals` methods. */
  const Tolerance: real := 0.0001

  function Abs(x: real): real {
    if x < 0.0 then -x else x
  }

  /** `Math.abs(x - y) < 0.0001`. */
  predicate Close(x: real, y: real) {
    Abs(x - y) < Tolerance
  }

  datatype Vector2 = Vector2(row: real, col: real)

  /** The default constructor: the zero vector. */
  function Zero(): Vector2 {
    Vector2(0.0, 0.0)
  }

  /** The copy constructor: a vector with both components of `v`. */
  function CopyOf(v: Vector2): (r: Vector2)
    ensures r == v
  {
    Vector2(v.row, v.col)
  }

  /** `setRow`: the row component becomes `x`, the column stays. */
  function WithRow(v: Vector2, x: real): (r: Vector2)
    ensures r.row == x && r.col == v.col
  {
    v.(row := x)
  }

  /** `setCol`: the column component becomes `x`, the row stays. */
  function WithCol(v: Vector2, x: real): (r: Vector2)
    ensures r.col == x && r.row == v.row
  {
    v.(col := x)
  }

  function Add(v: Vector2, w: Vector2): Vector2 {
    Vector2(v.row + w.row, v.col + w.col)
  }

  function Subtract(v: Vector2, w: Vector2): Vector2 {
    Vector2(v.row - w.row, v.col - w.col)
  }

  /** `multiply(double)`: both components scaled. */
  function Scale(v: Vector2, s: real): Vector2 {
    Vector2(v.row * s, v.col * s)
  }

  function Dot(v: Vector2, w: Vector2): real {
    v.row * w.row + v.col * w.col
  }

  /** The static `dot(v1, v2)`, which delegates to the instance method. */
  function DotOf(v1: Vector2, v2: Vector2): (r: real)
    ensures r == Dot(v1, v2)
  {
    v1.row * v2.row + v1.col * v2.col
  }

  /** `equals`: both components within the tolerance. */
  predicate Equals(v: Vector2, w: Vector2) {
    Close(v.row, w.row) && Close(v.col, w.col)
  }

  /** Subtracting what was added gives the vector back, and the other way
      round. */
  lemma AddSubtractRoundTrip(v: Vector2, w: Vector2)
    ensures Subtract(Add(v, w), w) == v
    ensures Add(Subtract(v, w), w) == v
  {
  }

  /** The zero vector is neutral for addition, and `Add` is commutative. */
  lemma AddLaws(u: Vector2, v: Vector2)
    ensures Add(u, Zero()) == u && Add(Zero(), u) == u
    ensures Add(u, v) == Add(v, u)
    ensures Subtract(u, u) == Zero()
  {
  }

  /** Scaling distributes over addition; scaling by 1 changes nothing and
      by 0 gives the zero vector. */
  lemma ScaleLaws(u: Vector2, v: Vector2, s: real)
    ensures Scale(Add(u, v), s) == Add(Scale(u, s), Scale(v, s))
    ensures Scale(u, 1.0) == u
    ensures Scale(u, 0.0) == Zero()
  {
  }

  /** The dot product is symmetric and linear in each argument. */
  lemma DotLaws(u: Vector2, v: Vector2, w: Vector2, s: real)
    ensures Dot(u, v) == Dot(v, u)
    ensures Dot(Add(u, v), w) == Dot(u, w) + Dot(v, w)
    ensures Dot(Scale(u, s), v) == s * Dot(u, v)
    ensures Dot(u, Zero()) == 0.0
  {
  }

  /** The arithmetic values the vector tests check: (3,4) and (1,2). */
  lemma VectorExamples()
    ensures Add(Vector2(3.0, 4.0), Vector2(1.0, 2.0)) == Vector2(4.0, 6.0)
    ensures Subtract(Vector2(3.0, 4.0), Vector2(1.0, 2.0)) == Vector2(2.0, 2.0)
    ensures Scale(Vector2(3.0, 4.0), 2.0) == Vector2(6.0, 8.0)
    ensures WithCol(WithRow(Vector2(3.0, 4.0), 5.0), 6.0) == Vector2(5.0, 6.0)
  {
  }

  /** The dot products the tests check, in both the instance and the static
      form, and one pair of perpendicular vectors. */
  lemma DotExamples()
    ensures Dot(Vector2(3.0, 4.0), Vector2(1.0, 2.0)) == 11.0
    ensures DotOf(Vector2(3.0, 4.0), Vector2(1.0, 2.0)) == 11.0
    ensures Dot(Vector2(1.0, 0.0), Vector2(0.0, 1.0)) == 0.0
  {
  }

  /** `equals` is reflexive and symmetric, and implied by exact equality. */
  lemma EqualsReflexiveSymmetric(v: Vector2, w: Vector2)
    ensures Equals(v, v)
    ensures Equals(v, w) <==> Equals(w, v)
  {
  }

  /** `equals` is not transitive: two steps just under the tolerance add
      up to more than it. */
  lemma EqualsNotTransitive()
    ensures Equals(Vector2(0.0, 0.0), Vector2(0.00006, 0.0))
    ensures Equals(Vector2(0.00006, 0.0), Vector2(0.00012, 0.0))
    ensures !Equals(Vector2(0.0, 0.0), Vector2(0.00012, 0.0))
  {
  }
}
